=== FILE: README.md ===
# jquery-scrolllocation in Dafny

A model of the jQuery plugin `jquery-scrolllocation.js`, which keeps the browser's
address bar in step with the section of a long page the reader has scrolled to. Every
element carrying the location attribute (`data-location` by default) is a candidate
section. On scroll, the plugin schedules one delayed pass. The pass measures the
candidates, picks the "best" one by the configured mode, and replaces the current
history entry's URL with that element's declared location. When no element resolves,
it uses the URL the page was loaded with.

Modules:

- `Wrappers`: the `Option` datatype. `None` stands for JavaScript `null`.
- `Config`: the plugin options (`mode`, `locationAttribute`, `viewportOffset`) and their defaults.
- `Registry`: document nodes and `refreshElements`. This is the attribute filter that keeps document order.
- `Resolver`: `getBestElement` over explicit geometry (`Box(top, height)` per candidate, viewport height, body top), covering cover mode and trigger mode.
- `Sync`: the browser as a record `{url, state, length}`, plus `generateUrl`, `updateLocation` (replace, never push) and `testForLocationChange` (one pass).
- `ScrollLoop`: the debounced control loop as a state machine. Its events are `Scroll`, `Fire(timer, layout)`, `ContentChanged(doc)` and `Navigate(browser)`, the last being a URL or history change made outside the plugin. It also defines traces of events.

How the browser is represented:

- Geometry is in `real`.
- URL resolution is an uninterpreted function `resolve(base, part)` held in `Sync.Env`. `generateUrl` resolves against the page's `<base href>` when it has one, and otherwise against the current document URL. So the base moves with every `replaceState`.
- The layout a pass reads is a parameter of the `Fire` event. It holds the viewport height, the body top, and each node's box and current attributes. This makes the pass use the geometry and the attribute values of firing time.
- A declared location missing at pass time reads as the string `"undefined"`. This is what `setAttribute('href', undefined)` stores.
- History state is a small `JsValue` type carrying JavaScript truthiness, so that `state || {}` follows the source for the values it covers: undefined, null, booleans, numbers other than NaN, strings and objects.

Behaviour the model follows:

- **Trigger-mode accumulator.** The accumulator `bestElementTop` starts as `null`, and in JavaScript `x > null` compares `x` with 0. The model uses `Option<real>` and treats `None` as 0 (`Resolver.DeeperThan`). As a consequence, trigger mode never selects a candidate whose top is at or above the top of the body (depth ≤ 0).
- **Trigger-mode ties.** The comparison at line 101 is strict, so of two candidates at equal depth the earlier one wins.
- **State on replace.** `updateLocation` keeps the current history state when it is truthy and otherwise stores `{}`. It does not merge anything into the state.
- **Path-relative locations drift.** On a page without `<base href>`, a path-relative declared location is resolved against the URL the previous pass wrote. So a second pass over unchanged geometry can replace the entry again, for example from `/s/p` to `/s/s/p` (`Sync.PathRelativeDrift`). A second pass is a no-op exactly when the chosen location resolves to itself against the new URL (`Sync.SyncIdempotent`). That always holds with a `<base href>`, and for absolute, root-relative and fragment-only locations.
- **Timer ids.** The scroll handler tests `delayedTestForLocationChange || setTimeout(...)`, which depends on timer ids being truthy. The HTML standard only promises ids greater than zero, and other scripts' timers share the same ids. Starting at 1 (`ScrollLoop.Init`) and adding 1 per timer is the model's own bookkeeping; the invariant `ScrollLoop.Inv` relies only on the ids being positive. It says the host holds exactly the plugin timer that the pending variable names. So at most one timer is ever pending.

## Model

| member | source | states |
|---|---|---|
| Registry.RefreshElements | jquery-scrolllocation.js:74-76 | every registered element carries the location attribute; a document node is registered exactly when it carries it; nothing outside the document is registered |
| Registry.RefreshPreservesOrder | jquery-scrolllocation.js:75 | the registry keeps document order: scanning `a + b` gives the scan of `a` followed by the scan of `b` |
| Registry.RefreshIdempotent | jquery-scrolllocation.js:75 | rescanning the registered list returns it unchanged |
| Resolver.CoverFrom | jquery-scrolllocation.js:89-96 | the cover loop from index `i` returns the first index at or after `i` whose box straddles the threshold, or none exactly when no box from `i` on straddles it |
| Resolver.Cover | jquery-scrolllocation.js:89-96 | cover mode returns the first straddling candidate in registry order; none exactly when no candidate straddles the line, including the empty list |
| Resolver.CoverIsFirstStraddler | jquery-scrolllocation.js:89-96 | cover mode returns `i` if and only if `i` is the first candidate straddling the line |
| Resolver.TriggerScan | jquery-scrolllocation.js:98-105 | after `n` iterations the loop holds the deepest triggered candidate with positive depth among the first `n`, earliest on ties, with its depth in the accumulator; it holds null exactly when none of the first `n` qualifies |
| Resolver.Trigger | jquery-scrolllocation.js:98-105 | trigger mode returns a candidate with `top <= threshold`, positive depth, no triggered candidate deeper and every earlier triggered candidate strictly shallower; none exactly when no triggered candidate has positive depth |
| Resolver.TriggerIsDeepest | jquery-scrolllocation.js:98-105 | trigger mode returns `i` if and only if `i` is that deepest candidate |
| Resolver.TriggerTieKeepsEarliest | jquery-scrolllocation.js:101-103 | of two triggered candidates at equal depth the later is never returned |
| Resolver.TriggerNeverSelectsNonPositiveDepth | jquery-scrolllocation.js:101 | because the accumulator starts as `null`, a candidate with depth ≤ 0 is never returned |
| Resolver.TriggerNullQuirkExample | jquery-scrolllocation.js:85-105 | a single triggered section flush with the body top resolves to nothing |
| Resolver.GetBestElement | jquery-scrolllocation.js:82-109 | the result is none or an index into the candidates; cover and trigger mode satisfy their selection properties at threshold `offset/100 * viewportHeight`; any other mode string yields none |
| Resolver.CoverScenario | jquery-scrolllocation.js:82-109 | tops -50, 40, 300 with heights 100, 200, 150, an 800 px viewport and offset 25: cover mode picks the section at 40 |
| Resolver.TriggerScenario | jquery-scrolllocation.js:82-109 | the same sections in trigger mode also pick the section at 40 |
| Sync.ReplaceMovesBase | jquery-scrolllocation.js:117-142 | without `<base href>`, a replace moves the base the next `generateUrl` resolves against to the new URL; with one, the base stays where it was |
| Sync.UpdateLocation | jquery-scrolllocation.js:140-143 | the replace sets the URL, keeps the number of history entries, and keeps a truthy state or stores `{}` instead of a falsy one |
| Sync.UpdateLocationIdempotent | jquery-scrolllocation.js:140-143 | replacing twice with one URL equals replacing once |
| Sync.TestForLocationChange | jquery-scrolllocation.js:117-134 | after a pass the URL is the target, resolved against the base of the current URL, and the entry count is unchanged; the browser is untouched exactly when the URL already was the target, and otherwise the entry is replaced |
| Sync.SyncIdempotent | jquery-scrolllocation.js:117-134 | a second pass on unchanged geometry needs no replace if and only if the chosen location resolves to itself against the URL the first pass wrote; when it does, the second pass leaves the browser as the first left it |
| Sync.SyncIdempotentWithBaseElement | jquery-scrolllocation.js:117-134 | on a page with `<base href>`, a second pass on unchanged geometry leaves the browser as the first pass left it |
| Sync.PathRelativeDrift | jquery-scrolllocation.js:117-133 | without `<base href>`, a section declaring `s/p` on page `/i` moves the URL to `/s/p`, and a second pass on the same geometry replaces it again with `/s/s/p` |
| Sync.SyncFollowsBestElement | jquery-scrolllocation.js:129-130 | when an element resolves, the URL becomes the resolved form of that element's declared location as read at pass time |
| Sync.SyncFallsBackToInitial | jquery-scrolllocation.js:129-130 | whenever no element resolves (an empty registry, an unknown mode, no straddler in cover mode, no triggered section with positive depth in trigger mode), the URL becomes the resolved form of the URL captured at load |
| Sync.SyncFallsBackAboveAllSections | jquery-scrolllocation.js:98-130 | in trigger mode with every section's top below the threshold line, the URL becomes the resolved form of the URL captured at load |
| ScrollLoop.Init | jquery-scrolllocation.js:56-67 | the loaded script's initial location is the URL at load; it holds no elements, no pending timer, the first timer id to hand out is 1, and the loop invariant holds |
| ScrollLoop.Step | jquery-scrolllocation.js:162-171 | every event keeps the invariant (at most one timer, the one the pending variable names); only an outside navigation changes the number of history entries; only a timer callback counts a pass |
| ScrollLoop.ScrollWhilePendingIsNoop | jquery-scrolllocation.js:167 | a scroll while a timer is pending leaves the session unchanged |
| ScrollLoop.ScrollWhileIdleSchedules | jquery-scrolllocation.js:167-170 | a scroll while idle schedules exactly one timer, the next id, and changes nothing else: the registry, the browser and the pass count stay as they were |
| ScrollLoop.FireRunsOnePass | jquery-scrolllocation.js:167-170 | a timer callback runs one pass on the layout at firing time and leaves the loop idle |
| ScrollLoop.Run | jquery-scrolllocation.js:162-171 | along any trace the host can produce, at most one timer is pending, the number of history entries is the one the last outside navigation left (or the initial one), and passes grow by at most one per event |
| ScrollLoop.PluginNeverGrowsHistory | jquery-scrolllocation.js:140-171 | along a trace without outside navigation, the number of history entries never changes |
| ScrollLoop.ScrollsWhilePending | jquery-scrolllocation.js:166-171 | any number of scrolls while pending leave the session as it was |
| ScrollLoop.BurstRunsOnePass | jquery-scrolllocation.js:166-171 | `n >= 1` scrolls from idle then the callback run exactly one pass, on the layout at firing time, and end idle |
| ScrollLoop.RepeatedBurstNoMutation | jquery-scrolllocation.js:127-171 | a second burst over the same layout leaves the browser as the first one did if and only if the chosen location resolves to itself against the URL the first burst wrote |

## Left out

- DOM and jQuery access (`$doc.find`, `getBoundingClientRect`, `$win.height()`, `document.body`): these are replaced by explicit geometry (`Sync.Layout`). The document is a flat node sequence in document order, so its tree structure is not modelled.
- URL resolution inside `generateUrl`: it is the uninterpreted `resolve(base, part)`. The model assumes neither idempotence nor any round trip, because URL resolution as defined by the WHATWG URL Standard is not part of this model. `Sync.PathResolve` is only a path-joining stand-in for the drift example.
- `<base href>`: it is taken as an absolute URL, fixed for the session. A relative or changing base element is not modelled.
- `history.replaceState` and `window.location`: these are the abstract `Browser` record. The structured clone of the state and the `title` argument are not modelled.
- `setTimeout` timing and the 100 ms delay: a timer firing is an explicit `Fire` event, and there is no clock.
- The `$.scrolllocation` registration (lines 148-154): it shadows `opts`, so it never changes the plugin options.
- The `try`/`catch` merge of `win.config` (lines 157-159): options are the explicit `Config.Options` value instead.
- Floating point: geometry is `real`, so IEEE rounding and NaN are not modelled. Truthiness of `NaN` is not modelled either.
- Exceptions inside the timer callback: error propagation is not modelled. In the program, a throw skips line 169, so the pending variable stays set and every later scroll does nothing (line 167). The model instead always writes the URL and returns to idle.
- Configuration validation: the code performs none, so the model has none either.
- Targets that `replaceState` rejects: these are a target that does not parse (such as `http://exa mple.com`, for which `el.href` returns the raw attribute) and a cross-origin target (such as `https://other.example/x` on `https://site.example/`). The program throws a `SecurityError` at line 142 and the loop stalls as described above. `Sync.UpdateLocation` and the `Fire` branch of `ScrollLoop.Step` instead write the URL and go idle, so the model does not match the program on such inputs.
- History states the `JsValue` type does not cover, such as BigInt `0n` (falsy) and symbols: the model does not say how `state || {}` treats them.
- Outside navigation: `Navigate` replaces the browser record by any other. Whether it unloads the page is not modelled, because a full page load ends the script's session.

=== FILE: config.dfy ===
/** The plugin options of jquery-scrolllocation.js (lines 22-40). */
module Config {

  /** `mode` is kept as the raw string: the resolver compares it with `'cover'` and `'trigger'`
      and does nothing for any other value. */
  datatype Options = Options(mode: string, locationAttribute: string, viewportOffset: real)

  /** The defaults the plugin ships with. */
  const Defaults: Options := Options("trigger", "data-location", 25.0)
}

=== FILE: registry.dfy ===
/** The element registry: the candidate list is the document's nodes carrying the
    location attribute, in document order (`refreshElements`). */
module Registry {

  /** A document node: `id` stands for node identity, `attrs` for its attributes. */
  datatype Node = Node(id: nat, attrs: map<string, string>)

  /** Every registered element carries the location attribute. */
  ghost predicate AllTagged(elements: seq<Node>, attr: string) {
    forall e :: e in elements ==> attr in e.attrs
  }

  /** The attribute selector `[attr]` applied to the document, flattened in document order. */
  function RefreshElements(doc: seq<Node>, attr: string): (r: seq<Node>)
    ensures AllTagged(r, attr)
    ensures forall n :: n in doc ==> (n in r <==> attr in n.attrs)
    ensures forall n :: n in r ==> n in doc
    ensures |r| <= |doc|
  {
    if |doc| == 0 then []
    else (if attr in doc[0].attrs then [doc[0]] else []) + RefreshElements(doc[1..], attr)
  }

  /** The filter keeps document order: scanning two consecutive stretches of the
      document gives the two scans one after the other. */
  lemma {:induction false} RefreshPreservesOrder(a: seq<Node>, b: seq<Node>, attr: string)
    ensures RefreshElements(a + b, attr) == RefreshElements(a, attr) + RefreshElements(b, attr)
    decreases |a|
  {
    if |a| == 0 {
      assert a + b == b;
    } else {
      assert (a + b)[1..] == a[1..] + b;
      RefreshPreservesOrder(a[1..], b, attr);
    }
  }

  /** Rescanning an already scanned list changes nothing. */
  lemma {:induction false} RefreshIdempotent(doc: seq<Node>, attr: string)
    ensures RefreshElements(RefreshElements(doc, attr), attr) == RefreshElements(doc, attr)
    decreases |doc|
  {
    if |doc| > 0 {
      var head := if attr in doc[0].attrs then [doc[0]] else [];
      var tail := RefreshElements(doc[1..], attr);
      RefreshPreservesOrder(head, tail, attr);
      RefreshIdempotent(doc[1..], attr);
      if attr in doc[0].attrs {
        assert RefreshElements(head, attr) == [doc[0]] by {
          assert head[1..] == [];
        }
      }
    }
  }
}

=== FILE: resolver.dfy ===
/** The location resolver (`getBestElement`): from one geometry sample, pick the index of
    the candidate the reader is "at", or none. */
module Resolver {

  import opened Wrappers
  import opened Config

  /** A candidate's bounding box relative to the viewport top. */
  datatype Box = Box(top: real, height: real)

  /** One geometry sample: the viewport height, the top of the document body relative to
      the viewport, and one box per candidate, in registry order. */
  datatype Geometry = Geometry(viewportHeight: real, bodyTop: real, boxes: seq<Box>)

  /** The threshold line, in pixels from the viewport top. */
  function ViewportThreshold(viewportOffset: real, viewportHeight: real): real {
    viewportOffset / 100.0 * viewportHeight
  }

  // ---------------------------------------------------------------- cover mode

  /** The box lies across the threshold line. */
  predicate Straddles(b: Box, threshold: real) {
    b.top <= threshold && b.top + b.height > threshold
  }

  /** `i` is the first candidate, in registry order, that straddles the line. */
  ghost predicate IsFirstStraddler(boxes: seq<Box>, threshold: real, i: int) {
    && 0 <= i < |boxes|
    && Straddles(boxes[i], threshold)
    && forall j :: 0 <= j < i ==> !Straddles(boxes[j], threshold)
  }

  ghost predicate NoStraddler(boxes: seq<Box>, threshold: real) {
    forall j :: 0 <= j < |boxes| ==> !Straddles(boxes[j], threshold)
  }

  /** The cover loop from index `i` on, stopping at the first straddling box. */
  function CoverFrom(boxes: seq<Box>, threshold: real, i: nat): (r: Option<nat>)
    requires i <= |boxes|
    ensures r.Some? ==> i <= r.value < |boxes| && Straddles(boxes[r.value], threshold)
    ensures r.Some? ==> forall j :: i <= j < r.value ==> !Straddles(boxes[j], threshold)
    ensures r.None? <==> forall j :: i <= j < |boxes| ==> !Straddles(boxes[j], threshold)
    decreases |boxes| - i
  {
    if i == |boxes| then None
    else if Straddles(boxes[i], threshold) then Some(i)
    else CoverFrom(boxes, threshold, i + 1)
  }

  /** Cover mode: the first straddling candidate, none when no candidate straddles
      the line (in particular for an empty list). */
  function Cover(boxes: seq<Box>, threshold: real): (r: Option<nat>)
    ensures r.Some? ==> IsFirstStraddler(boxes, threshold, r.value)
    ensures r.None? <==> NoStraddler(boxes, threshold)
  {
    CoverFrom(boxes, threshold, 0)
  }

  /** The first straddler is unique, so cover mode returns exactly it. */
  lemma CoverIsFirstStraddler(boxes: seq<Box>, threshold: real, i: int)
    ensures Cover(boxes, threshold) == Some(i) <==> IsFirstStraddler(boxes, threshold, i)
  {
  }

  // -------------------------------------------------------------- trigger mode

  /** How far the candidate's top lies below the top of the document body. */
  function Depth(b: Box, bodyTop: real): real {
    b.top - bodyTop
  }

  /** The candidate's top has reached the threshold line. */
  predicate Triggered(b: Box, threshold: real) {
    b.top <= threshold
  }

  /** The comparison `depth > bestElementTop`, where the accumulator starts as `null`:
      a relational comparison converts `null` to 0, so before any candidate is taken
      a depth must be strictly positive. */
  predicate DeeperThan(depth: real, bestTop: Option<real>) {
    match bestTop
    case None => depth > 0.0
    case Some(v) => depth > v
  }

  /** A candidate the trigger loop can take at all: triggered and strictly below the body top. */
  ghost predicate Selectable(b: Box, threshold: real, bodyTop: real) {
    Triggered(b, threshold) && Depth(b, bodyTop) > 0.0
  }

  /** Among the first `n` candidates, `i` is selectable, no triggered candidate is deeper,
      and every earlier triggered candidate is strictly shallower (ties keep the earliest). */
  ghost predicate DeepestWithin(boxes: seq<Box>, n: int, threshold: real, bodyTop: real, i: int)
    requires 0 <= n <= |boxes|
  {
    && 0 <= i < n
    && Selectable(boxes[i], threshold, bodyTop)
    && (forall j :: 0 <= j < n && Triggered(boxes[j], threshold) ==>
          Depth(boxes[j], bodyTop) <= Depth(boxes[i], bodyTop))
    && (forall j :: 0 <= j < i && Triggered(boxes[j], threshold) ==>
          Depth(boxes[j], bodyTop) < Depth(boxes[i], bodyTop))
  }

  ghost predicate IsDeepest(boxes: seq<Box>, threshold: real, bodyTop: real, i: int) {
    DeepestWithin(boxes, |boxes|, threshold, bodyTop, i)
  }

  ghost predicate NoneSelectable(boxes: seq<Box>, threshold: real, bodyTop: real) {
    forall j :: 0 <= j < |boxes| ==> !Selectable(boxes[j], threshold, bodyTop)
  }

  /** The two loop variables of the trigger loop: `bestElementTop` and `bestElement`. */
  datatype TriggerAcc = TriggerAcc(bestTop: Option<real>, best: Option<nat>)

  /** The trigger loop after its first `n` iterations. */
  function TriggerScan(boxes: seq<Box>, threshold: real, bodyTop: real, n: nat): (acc: TriggerAcc)
    requires n <= |boxes|
    ensures acc.best.None? <==> acc.bestTop.None?
    ensures acc.best.None? <==> forall j :: 0 <= j < n ==> !Selectable(boxes[j], threshold, bodyTop)
    ensures acc.best.Some? ==> DeepestWithin(boxes, n, threshold, bodyTop, acc.best.value)
    ensures acc.best.Some? ==> acc.bestTop == Some(Depth(boxes[acc.best.value], bodyTop))
  {
    if n == 0 then TriggerAcc(None, None)
    else
      var acc := TriggerScan(boxes, threshold, bodyTop, n - 1);
      var b := boxes[n - 1];
      if Triggered(b, threshold) && DeeperThan(Depth(b, bodyTop), acc.bestTop)
      then TriggerAcc(Some(Depth(b, bodyTop)), Some(n - 1))
      else acc
  }

  /** Trigger mode: the deepest triggered candidate with positive depth, earliest on ties;
      none when no candidate is triggered with positive depth. */
  function Trigger(boxes: seq<Box>, threshold: real, bodyTop: real): (r: Option<nat>)
    ensures r.Some? ==> IsDeepest(boxes, threshold, bodyTop, r.value)
    ensures r.None? <==> NoneSelectable(boxes, threshold, bodyTop)
  {
    TriggerScan(boxes, threshold, bodyTop, |boxes|).best
  }

  /** The deepest candidate is unique, so trigger mode returns exactly it. */
  lemma TriggerIsDeepest(boxes: seq<Box>, threshold: real, bodyTop: real, i: int)
    ensures Trigger(boxes, threshold, bodyTop) == Some(i) <==> IsDeepest(boxes, threshold, bodyTop, i)
  {
  }

  /** Of two triggered candidates at the same depth, the later one is never chosen. */
  lemma TriggerTieKeepsEarliest(boxes: seq<Box>, threshold: real, bodyTop: real, i: nat, j: nat)
    requires i < j < |boxes|
    requires Triggered(boxes[i], threshold) && Triggered(boxes[j], threshold)
    requires Depth(boxes[i], bodyTop) == Depth(boxes[j], bodyTop)
    ensures Trigger(boxes, threshold, bodyTop) != Some(j)
  {
  }

  /** Because the accumulator starts as `null`, a candidate whose top lies at or above the
      body top is never selected, even when it is the only triggered one. */
  lemma TriggerNeverSelectsNonPositiveDepth(boxes: seq<Box>, threshold: real, bodyTop: real, i: nat)
    requires i < |boxes|
    requires Depth(boxes[i], bodyTop) <= 0.0
    ensures Trigger(boxes, threshold, bodyTop) != Some(i)
  {
  }

  /** The first section flush with the body top, already past the line, resolves to nothing. */
  lemma TriggerNullQuirkExample()
    ensures Trigger([Box(0.0, 500.0)], 200.0, 0.0) == None
  {
  }

  // ------------------------------------------------------------------- dispatch

  /** `getBestElement`: dispatch on the mode string; any other mode gives no element. */
  function GetBestElement(opts: Options, g: Geometry): (r: Option<nat>)
    ensures r.Some? ==> r.value < |g.boxes|
    ensures opts.mode != "cover" && opts.mode != "trigger" ==> r.None?
    ensures opts.mode == "cover" ==>
      var t := ViewportThreshold(opts.viewportOffset, g.viewportHeight);
      && (r.Some? ==> IsFirstStraddler(g.boxes, t, r.value))
      && (r.None? <==> NoStraddler(g.boxes, t))
    ensures opts.mode == "trigger" ==>
      var t := ViewportThreshold(opts.viewportOffset, g.viewportHeight);
      && (r.Some? ==> IsDeepest(g.boxes, t, g.bodyTop, r.value))
      && (r.None? <==> NoneSelectable(g.boxes, t, g.bodyTop))
  {
    var t := ViewportThreshold(opts.viewportOffset, g.viewportHeight);
    if opts.mode == "cover" then Cover(g.boxes, t)
    else if opts.mode == "trigger" then Trigger(g.boxes, t, g.bodyTop)
    else None
  }

  /** Three stacked sections with tops -50, 40, 300 and heights 100, 200, 150 in an
      800 pixel viewport with the default offset 25: the threshold is 200 and the section at 40 covers it. */
  lemma CoverScenario()
    ensures GetBestElement(Defaults.(mode := "cover"),
                           Geometry(800.0, -100.0, [Box(-50.0, 100.0), Box(40.0, 200.0), Box(300.0, 150.0)]))
            == Some(1)
  {
  }

  /** The same sections in trigger mode (the default mode): tops -50 and 40 have reached the line and 40 lies deeper. */
  lemma TriggerScenario()
    ensures GetBestElement(Defaults,
                           Geometry(800.0, -100.0, [Box(-50.0, 100.0), Box(40.0, 200.0), Box(300.0, 150.0)]))
            == Some(1)
  {
    var boxes := [Box(-50.0, 100.0), Box(40.0, 200.0), Box(300.0, 150.0)];
    assert ViewportThreshold(25.0, 800.0) == 200.0;
    TriggerIsDeepest(boxes, 200.0, -100.0, 1);
  }
}

=== FILE: scrollloop.dfy ===
/** The scroll-driven control loop: the document-level `scroll` handler that schedules at
    most one delayed pass, the timer callback that runs it, and the `ready` /
    `DOMContentAdded` handler that refreshes the registry. Timer firing is an explicit
    event; the delay itself is not modelled. */
module ScrollLoop {

  import opened Wrappers
  import opened Config
  import opened Registry
  import opened Sync

  /** The plugin's state together with the host's scheduled timers.
      `pending` is the variable `delayedTestForLocationChange` (None is `null`), `timers` the
      ids of callbacks the host has scheduled and not yet run, `nextTimer` the id the host
      hands out next, `passes` the number of resolution passes run so far. */
  datatype Session = Session(
    elements: seq<Node>,
    pending: Option<nat>,
    timers: set<nat>,
    nextTimer: nat,
    browser: Browser,
    passes: nat)

  /** `Navigate` is any change of URL or history from outside the plugin: a fragment link,
      back or forward, another script's `pushState`. */
  datatype Event =
    | Scroll
    | Fire(timer: nat, layout: Layout)
    | ContentChanged(doc: seq<Node>)
    | Navigate(browser: Browser)

  /** The timers the host holds for a given value of the pending variable. */
  function PendingTimers(pending: Option<nat>): set<nat> {
    match pending
    case None => {}
    case Some(t) => {t}
  }

  /** Host timer ids are positive and increasing; the host holds exactly the timer the
      pending variable names. */
  ghost predicate Inv(s: Session) {
    && 1 <= s.nextTimer
    && s.timers == PendingTimers(s.pending)
    && (s.pending.Some? ==> 1 <= s.pending.value < s.nextTimer)
  }

  /** The session right after the script has loaded: the initial location is the URL at
      load, nothing is registered and nothing is pending. */
  function Init(env: Env, b: Browser): (s: Session)
    requires env.initialLocation == b.url
    ensures Inv(s)
    ensures s.elements == [] && s.browser == b && s.browser.url == env.initialLocation
    ensures s.pending.None? && s.timers == {} && s.nextTimer == 1 && s.passes == 0
  {
    Session([], None, {}, 1, b, 0)
  }

  /** The host only runs callbacks it has scheduled. */
  predicate Enabled(s: Session, e: Event) {
    match e
    case Fire(t, _) => t in s.timers
    case _ => true
  }

  /** One event. A scroll evaluates `pending || setTimeout(...)`: a truthy pending id is
      kept, otherwise a new timer is scheduled. A timer callback runs one pass on the
      layout of that moment and then clears the pending variable. Only an outside
      navigation changes the number of history entries. */
  function Step(env: Env, s: Session, e: Event): (r: Session)
    requires Inv(s) && Enabled(s, e)
    ensures Inv(r)
    ensures |r.timers| <= 1
    ensures r.browser.length == if e.Navigate? then e.browser.length else s.browser.length
    ensures r.passes == if e.Fire? then s.passes + 1 else s.passes
  {
    match e
    case Scroll =>
      if s.pending.Some? && s.pending.value != 0 then s
      else
        var t := s.nextTimer;
        s.(pending := Some(t), timers := s.timers + {t}, nextTimer := t + 1)
    case Fire(t, layout) =>
      var b := TestForLocationChange(env, s.elements, layout, s.browser);
      s.(browser := b, pending := None, timers := s.timers - {t}, passes := s.passes + 1)
    case ContentChanged(doc) =>
      s.(elements := RefreshElements(doc, env.opts.locationAttribute))
    case Navigate(b) =>
      s.(browser := b)
  }

  /** A scroll while a pass is pending changes nothing. */
  lemma ScrollWhilePendingIsNoop(env: Env, s: Session)
    requires Inv(s) && s.pending.Some?
    ensures Step(env, s, Scroll) == s
  {
  }

  /** A scroll while idle schedules exactly one timer and does nothing else: in
      particular the registry is not rescanned and the browser is not touched. */
  lemma ScrollWhileIdleSchedules(env: Env, s: Session)
    requires Inv(s) && s.pending.None?
    ensures Step(env, s, Scroll)
            == s.(pending := Some(s.nextTimer), timers := {s.nextTimer}, nextTimer := s.nextTimer + 1)
  {
  }

  /** A timer callback runs exactly one pass, with the layout at firing time, and
      leaves the loop idle. */
  lemma FireRunsOnePass(env: Env, s: Session, t: nat, layout: Layout)
    requires Inv(s) && t in s.timers
    ensures Step(env, s, Fire(t, layout)).pending.None?
    ensures Step(env, s, Fire(t, layout)).timers == {}
    ensures Step(env, s, Fire(t, layout)).passes == s.passes + 1
    ensures Step(env, s, Fire(t, layout)).browser == TestForLocationChange(env, s.elements, layout, s.browser)
  {
  }

  /** The number of history entries after a trace: the one set by the last outside
      navigation, or `len` when there is none. */
  function LengthAfter(len: nat, es: seq<Event>): nat
    decreases |es|
  {
    if |es| == 0 then len
    else LengthAfter(if es[0].Navigate? then es[0].browser.length else len, es[1..])
  }

  /** Running a trace; None when the trace holds a callback the host never scheduled. */
  function Run(env: Env, s: Session, es: seq<Event>): (r: Option<Session>)
    requires Inv(s)
    ensures r.Some? ==> Inv(r.value)
    ensures r.Some? ==> |r.value.timers| <= 1
    ensures r.Some? ==> r.value.browser.length == LengthAfter(s.browser.length, es)
    ensures r.Some? ==> s.passes <= r.value.passes <= s.passes + |es|
    decreases |es|
  {
    if |es| == 0 then Some(s)
    else if !Enabled(s, es[0]) then None
    else Run(env, Step(env, s, es[0]), es[1..])
  }

  /** The plugin's own events never change the number of history entries. */
  lemma {:induction false} PluginNeverGrowsHistory(env: Env, s: Session, es: seq<Event>)
    requires Inv(s)
    requires forall i :: 0 <= i < |es| ==> !es[i].Navigate?
    ensures Run(env, s, es).Some? ==> Run(env, s, es).value.browser.length == s.browser.length
    decreases |es|
  {
    if |es| > 0 && Enabled(s, es[0]) {
      PluginNeverGrowsHistory(env, Step(env, s, es[0]), es[1..]);
    }
  }

  /** Running two traces one after the other. */
  lemma {:induction false} RunAppend(env: Env, s: Session, a: seq<Event>, b: seq<Event>)
    requires Inv(s)
    ensures Run(env, s, a + b) == match Run(env, s, a) case None => None case Some(m) => Run(env, m, b)
    decreases |a|
  {
    if |a| > 0 {
      assert (a + b)[0] == a[0];
      assert (a + b)[1..] == a[1..] + b;
      if Enabled(s, a[0]) {
        RunAppend(env, Step(env, s, a[0]), a[1..], b);
      }
    } else {
      assert a + b == b;
    }
  }

  function Scrolls(n: nat): seq<Event> {
    seq(n, _ => Scroll)
  }

  /** Any number of scrolls while a pass is pending leave the session as it was. */
  lemma {:induction false} ScrollsWhilePending(env: Env, s: Session, n: nat)
    requires Inv(s) && s.pending.Some?
    ensures Run(env, s, Scrolls(n)) == Some(s)
    decreases n
  {
    if n > 0 {
      assert Scrolls(n)[1..] == Scrolls(n - 1);
      ScrollWhilePendingIsNoop(env, s);
      ScrollsWhilePending(env, s, n - 1);
    }
  }

  /** A burst of `n >= 1` scrolls from idle followed by the timer callback runs exactly one
      pass, on the layout at firing time, and leaves the loop idle again. */
  lemma {:induction false} BurstRunsOnePass(env: Env, s: Session, n: nat, layout: Layout)
    requires Inv(s) && s.pending.None? && n >= 1
    ensures Run(env, s, Scrolls(n) + [Fire(s.nextTimer, layout)])
            == Some(Session(s.elements, None, {}, s.nextTimer + 1,
                            TestForLocationChange(env, s.elements, layout, s.browser), s.passes + 1))
  {
    var s1 := Step(env, s, Scroll);
    assert Scrolls(n)[0] == Scroll && Scrolls(n)[1..] == Scrolls(n - 1);
    assert Run(env, s, Scrolls(n)) == Run(env, s1, Scrolls(n - 1));
    ScrollsWhilePending(env, s1, n - 1);
    RunAppend(env, s, Scrolls(n), [Fire(s.nextTimer, layout)]);
    var f: seq<Event> := [Fire(s.nextTimer, layout)];
    assert f[1..] == [];
    assert Run(env, s1, f) == Some(Step(env, s1, f[0]));
  }

  /** Two bursts over the same layout, with nothing else in between: the second pass
      leaves the browser as the first pass left it exactly when the chosen location
      resolves to itself against the URL the first pass produced. */
  lemma {:induction false} RepeatedBurstNoMutation(env: Env, s: Session, n: nat, m: nat, layout: Layout)
    requires Inv(s) && s.pending.None? && n >= 1 && m >= 1
    ensures
      var s1 := Run(env, s, Scrolls(n) + [Fire(s.nextTimer, layout)]);
      && s1.Some?
      && var s2 := Run(env, s1.value, Scrolls(m) + [Fire(s1.value.nextTimer, layout)]);
      && s2.Some?
      && (s2.value.browser == s1.value.browser
          <==> ResolvesToItself(env, s.browser.url, PassPart(env, s.elements, layout)))
  {
    BurstRunsOnePass(env, s, n, layout);
    var s1 := Run(env, s, Scrolls(n) + [Fire(s.nextTimer, layout)]).value;
    BurstRunsOnePass(env, s1, m, layout);
    SyncIdempotent(env, s.elements, layout, s.browser);
  }
}

=== FILE: sync.dfy ===
/** The history synchroniser: one resolution pass (`testForLocationChange`) and the
    in-place history update it performs (`updateLocation`). */
module Sync {

  import opened Wrappers
  import opened Config
  import opened Registry
  import opened Resolver

  /** The values a history entry's state can hold, enough to model `state || {}`. */
  datatype JsValue =
    | Undefined
    | Null
    | Bool(b: bool)
    | Num(n: real)
    | Str(s: string)
    | Obj(entries: map<string, JsValue>)

  /** JavaScript truthiness (NaN is not modelled). */
  predicate Truthy(v: JsValue) {
    match v
    case Undefined => false
    case Null => false
    case Bool(b) => b
    case Num(n) => n != 0.0
    case Str(s) => s != ""
    case Obj(_) => true
  }

  /** The part of the browser the plugin reads and writes: the current URL,
      the current history entry's state and the number of history entries. */
  datatype Browser = Browser(url: string, state: JsValue, length: nat)

  /** The live document at the moment a pass runs: viewport height, body top, and the
      bounding box and current attributes of any node. */
  datatype Layout = Layout(
    viewportHeight: real,
    bodyTop: real,
    boxOf: Node -> Box,
    attrsOf: Node -> map<string, string>)

  /** What a session fixes once: the options, the URL captured when the script loaded,
      the page's `<base href>` if it has one, and URL resolution `resolve(base, part)`,
      left uninterpreted. */
  datatype Env = Env(
    opts: Options,
    initialLocation: string,
    baseHref: Option<string>,
    resolve: (string, string) -> string)

  /** The URL an anchor's `href` is resolved against: the page's `<base href>` when there
      is one, otherwise the current document URL, which `replaceState` changes. */
  function DocumentBase(env: Env, url: string): string {
    match env.baseHref
    case Some(h) => h
    case None => url
  }

  /** `generateUrl`: the `href` of an anchor whose attribute is `part`, while the
      document URL is `url`. */
  function GenerateUrl(env: Env, url: string, part: string): string {
    env.resolve(DocumentBase(env, url), part)
  }

  /** `$(el).attr(name)`, read at pass time. A missing attribute reads as `undefined`,
      which `setAttribute('href', …)` turns into the string "undefined". */
  function DeclaredLocation(layout: Layout, n: Node, attr: string): string {
    var attrs := layout.attrsOf(n);
    if attr in attrs then attrs[attr] else "undefined"
  }

  /** Read the current geometry of the registered elements. */
  function Sample(elements: seq<Node>, layout: Layout): Geometry {
    Geometry(layout.viewportHeight, layout.bodyTop,
             seq(|elements|, i requires 0 <= i < |elements| => layout.boxOf(elements[i])))
  }

  /** `updateLocation`: replace the current entry's URL, keeping its state when truthy
      and putting an empty object there otherwise; no entry is added. */
  function UpdateLocation(b: Browser, url: string): (r: Browser)
    ensures r.url == url
    ensures r.length == b.length
    ensures Truthy(r.state)
    ensures Truthy(b.state) ==> r.state == b.state
    ensures !Truthy(b.state) ==> r.state == Obj(map[])
  {
    var stateObj := if Truthy(b.state) then b.state else Obj(map[]);
    Browser(url, stateObj, b.length)
  }

  /** Without `<base href>`, a replace also moves the base that the next pass resolves
      against to the new URL; with one, the base stays where it was. */
  lemma ReplaceMovesBase(env: Env, b: Browser, url: string)
    ensures env.baseHref.None? ==> DocumentBase(env, UpdateLocation(b, url).url) == url
    ensures env.baseHref.Some? ==> DocumentBase(env, UpdateLocation(b, url).url) == DocumentBase(env, b.url)
  {
  }

  /** Replacing twice with the same URL is the same as replacing once. */
  lemma UpdateLocationIdempotent(b: Browser, url: string)
    ensures UpdateLocation(UpdateLocation(b, url), url) == UpdateLocation(b, url)
  {
  }

  /** The string a pass hands to `generateUrl`: the best element's declared location,
      or the initial location when nothing resolves. */
  function PassPart(env: Env, elements: seq<Node>, layout: Layout): string {
    match GetBestElement(env.opts, Sample(elements, layout))
    case Some(i) => DeclaredLocation(layout, elements[i], env.opts.locationAttribute)
    case None => env.initialLocation
  }

  /** The URL a pass aims for while the document URL is `url`. */
  function BestLocation(env: Env, elements: seq<Node>, layout: Layout, url: string): string {
    GenerateUrl(env, url, PassPart(env, elements, layout))
  }

  /** History is touched only when the pass's target differs from the current URL. */
  predicate NeedsReplace(env: Env, elements: seq<Node>, layout: Layout, b: Browser) {
    b.url != BestLocation(env, elements, layout, b.url)
  }

  /** `testForLocationChange`: afterwards the URL is the pass's target and the number of
      history entries is unchanged; the browser is left alone exactly when the URL was
      already the target, and otherwise the entry is replaced. */
  function TestForLocationChange(env: Env, elements: seq<Node>, layout: Layout, b: Browser): (r: Browser)
    ensures r.url == BestLocation(env, elements, layout, b.url)
    ensures r.length == b.length
    ensures r == b <==> !NeedsReplace(env, elements, layout, b)
    ensures NeedsReplace(env, elements, layout, b) ==> r == UpdateLocation(b, r.url)
  {
    var bestLocation := BestLocation(env, elements, layout, b.url);
    if b.url != bestLocation then UpdateLocation(b, bestLocation) else b
  }

  /** Resolving `part` while the document URL is `url`, then resolving it again against
      the URL that came out, gives the same URL. True of absolute, root-relative and
      fragment-only parts, and of every part when the page has a `<base href>`. */
  ghost predicate ResolvesToItself(env: Env, url: string, part: string) {
    var t := GenerateUrl(env, url, part);
    GenerateUrl(env, t, part) == t
  }

  /** A second pass on unchanged geometry performs no history mutation exactly when the
      chosen location resolves to itself against the URL the first pass left behind. */
  lemma SyncIdempotent(env: Env, elements: seq<Node>, layout: Layout, b: Browser)
    ensures !NeedsReplace(env, elements, layout, TestForLocationChange(env, elements, layout, b))
            <==> ResolvesToItself(env, b.url, PassPart(env, elements, layout))
    ensures ResolvesToItself(env, b.url, PassPart(env, elements, layout)) ==>
            TestForLocationChange(env, elements, layout, TestForLocationChange(env, elements, layout, b))
            == TestForLocationChange(env, elements, layout, b)
  {
  }

  /** With a `<base href>` the base does not move with the URL, so a second pass on
      unchanged geometry never touches history. */
  lemma SyncIdempotentWithBaseElement(env: Env, elements: seq<Node>, layout: Layout, b: Browser)
    requires env.baseHref.Some?
    ensures TestForLocationChange(env, elements, layout, TestForLocationChange(env, elements, layout, b))
            == TestForLocationChange(env, elements, layout, b)
  {
  }

  /** The target is the resolved form of the element's declared location when one resolves. */
  lemma SyncFollowsBestElement(env: Env, elements: seq<Node>, layout: Layout, b: Browser, i: nat)
    requires GetBestElement(env.opts, Sample(elements, layout)) == Some(i)
    ensures i < |elements|
    ensures TestForLocationChange(env, elements, layout, b).url
            == GenerateUrl(env, b.url, DeclaredLocation(layout, elements[i], env.opts.locationAttribute))
  {
  }

  /** Whenever no element resolves, a pass falls back to the initial location. */
  lemma SyncFallsBackToInitial(env: Env, elements: seq<Node>, layout: Layout, b: Browser)
    requires GetBestElement(env.opts, Sample(elements, layout)).None?
    ensures TestForLocationChange(env, elements, layout, b).url == GenerateUrl(env, b.url, env.initialLocation)
  {
  }

  /** In trigger mode, scrolled above every section (every top below the threshold
      line), a pass falls back to the initial location. */
  lemma SyncFallsBackAboveAllSections(env: Env, elements: seq<Node>, layout: Layout, b: Browser)
    requires env.opts.mode == "trigger"
    requires forall i :: 0 <= i < |elements| ==>
      layout.boxOf(elements[i]).top > ViewportThreshold(env.opts.viewportOffset, layout.viewportHeight)
    ensures TestForLocationChange(env, elements, layout, b).url == GenerateUrl(env, b.url, env.initialLocation)
  {
    var g := Sample(elements, layout);
    assert NoneSelectable(g.boxes, ViewportThreshold(env.opts.viewportOffset, layout.viewportHeight), g.bodyTop);
  }

  // ------------------------------------------- path-relative drift, by example

  /** Everything up to and including the last `/`: the directory a path-relative
      reference is resolved in (the only part of URL resolution the example needs). */
  function Directory(url: string): (d: string)
    ensures |d| <= |url| && d == url[..|d|]
  {
    if |url| == 0 then ""
    else if url[|url| - 1] == '/' then url
    else Directory(url[..|url| - 1])
  }

  /** Path-relative resolution against a base path; parts starting with `/` are kept. */
  function PathResolve(base: string, part: string): string {
    if |part| > 0 && part[0] == '/' then part else Directory(base) + part
  }

  /** On a page at `/i` without `<base href>`, one section declaring `s/p` and covering
      the trigger line: the first pass moves the URL to `/s/p`, and the second pass, on
      the same geometry, resolves `s/p` against `/s/p` and replaces again. */
  lemma PathRelativeDrift()
    ensures
      var env := Env(Defaults, "/i", None, PathResolve);
      var n := Node(0, map["data-location" := "s/p"]);
      var layout := Layout(800.0, -10.0, _ => Box(0.0, 1000.0), _ => n.attrs);
      var b := Browser("/i", Null, 1);
      var b1 := TestForLocationChange(env, [n], layout, b);
      && b1.url == "/s/p"
      && NeedsReplace(env, [n], layout, b1)
      && TestForLocationChange(env, [n], layout, b1).url == "/s/s/p"
  {
    var env := Env(Defaults, "/i", None, PathResolve);
    var n := Node(0, map["data-location" := "s/p"]);
    var layout := Layout(800.0, -10.0, _ => Box(0.0, 1000.0), _ => n.attrs);
    assert Sample([n], layout).boxes == [Box(0.0, 1000.0)];
    assert ViewportThreshold(25.0, 800.0) == 200.0;
    TriggerIsDeepest([Box(0.0, 1000.0)], 200.0, -10.0, 0);
    assert PassPart(env, [n], layout) == "s/p";
    assert Directory("/") == "/";
    assert Directory("/i") == "/";
    assert PathResolve("/i", "s/p") == "/s/p";
    assert Directory("/s/") == "/s/";
    assert Directory("/s/p") == "/s/";
    assert PathResolve("/s/p", "s/p") == "/s/s/p";
  }
}

=== FILE: wrappers.dfy ===
/** The Some/None datatype used wherever jquery-scrolllocation.js uses a value that may be `null`. */
module Wrappers {

  datatype Option<+T> = None | Some(value: T)
}
